=== FILE: README.md ===
# Pixel Quest game rules in Dafny

This project models the game-state rules of Pixel Quest (`pixel-quest/game.js`).
Pixel Quest is a single-screen tile game on a fixed 12 × 10 map. The player
steps from tile to tile with the arrow keys, W/A/S/D or the on-screen buttons.
Walls and water block movement. Stepping onto a collectible picks it up and
credits its coins and xp. Stepping onto a closed chest opens it and pays a
level-dependent bonus. Reaching the xp threshold raises the level, and the
threshold grows by 1.5×, rounded down.

The model is functional. The game's module-level variables become one
immutable `GameState`: player position, a `Progress` record (coins, xp,
level, xpToNext), the collectible list and the chest list. Every rule is a
pure function from one state to the next. The level-up loop is also written
as a method with a `while` loop, as the game writes it.

The game uses `setTimeout` for two game-state actions: respawning the collectibles one
second after the list is found empty, and closing an opened chest ten
seconds later. A step does not run these. It returns them as `Deferred`
values, and `Respawn` and `CloseChestAt` fire them as explicit operations.
`Run` applies any sequence of key presses and timer firings. It lets the
timers fire at any point, so it covers every timing the real timers can
produce.

`Math.random` is not modelled as a source of randomness. Instead, the random
draws of `spawnCollectibles` are inputs: a stream of candidate cells and a
stream of item-type indices. `Math.floor(t * 1.5)` on a whole-number
threshold `t` is exactly `(3 * t) / 2` on naturals.

Modules, one per file:

- `Grid` (grid.dfy): the literal map, bounds and walkability.
- `Items` (items.dfy): collectible and chest records, the item-type table,
  and the split of a list by tile.
- `Progression` (progression.dfy): the level-up rule and the xp ledger.
- `Pickup` (pickup.dfy): `checkCollectibles`.
- `Chests` (chests.dfy): `spawnTriggers`, `checkTriggers` and the chest
  reset.
- `Spawn` (spawn.dfy): the rejection loop and validity of
  `spawnCollectibles`.
- `Controls` (controls.dfy): the key dispatch.
- `Game` (game.dfy): `movePlayer`, the deferred actions, initialisation,
  and runs of events.
- `Options` (options.dfy): an optional-value datatype.

The "xp ledger" is an invariant of every reachable state. `Threshold(level)`
is the threshold in force at each level (50 at level 1, then grown 1.5×
per level). The state keeps `xpToNext == Threshold(level)`.
`TotalXp = Cumulative(level) + xp` is the xp earned since the start, where
`Cumulative(level)` is the xp spent on all level-ups so far. Every rule
changes `TotalXp` by exactly the xp it credits.

## Model

| member | source | states |
|---|---|---|
| Grid.BorderIsWall | pixel-quest/game.js:34-45 | Every cell on the outer ring of the 12 × 10 map is a wall (tile 1) |
| Grid.WalkableIsInterior | pixel-quest/game.js:34-45 | A cell that passes the movement test is never on row 0, column 0, the last row or the last column |
| Grid.WalkableIsFloorOrGrass | pixel-quest/game.js:33-45 | Every tile is one of the codes 0–3, so an in-bounds cell is walkable exactly when it is floor (0) or grass (2) |
| Items.At | pixel-quest/game.js:152-153 | An item is in the result exactly when it is in the list and lies on the given tile |
| Items.Away | pixel-quest/game.js:152-162 | An item is in the result exactly when it is in the list and lies off the given tile |
| Items.SplitIsPartition | pixel-quest/game.js:152-163 | The items on a tile and the items elsewhere together are the original list as a multiset, and their lengths add up to its length |
| Items.AwayKeepsDistinct | pixel-quest/game.js:152-163 | Filtering out one tile keeps a list whose items are on pairwise different tiles |
| Progression.LevelUp | pixel-quest/game.js:195-202 | For a threshold of at least 1, the loop stops after k level-ups, where k is the rise in level. It spends exactly the first k thresholds, its threshold is the k-th grown one, its xp ends below that threshold, coins are unchanged and the threshold never decreases |
| Progression.CheckLevelUp | pixel-quest/game.js:195-202 | The `while` loop, written as the game writes it, has the same exact outcome as LevelUp and equals it |
| Progression.LevelUpUnique | pixel-quest/game.js:196-199 | Any progress that spent exactly the first k thresholds and ended below the next one is the loop's result, so the stopping point is unique |
| Progression.DoubleLevelUp | pixel-quest/game.js:196-199 | 125 xp against threshold 50 (2.5 times the threshold) gives two level-ups, 0 xp left and threshold 112 |
| Progression.LevelUpAbsorbs | pixel-quest/game.js:154-159 | Levelling up between two credits gives the same result as crediting both and levelling up once |
| Progression.GrowNThreshold | pixel-quest/game.js:16-17 | From a game that starts at level 1 with threshold 50, k level-ups from any level give the threshold of the level k higher |
| Progression.LevelUpKeepsLedger | pixel-quest/game.js:195-202 | If the threshold matches the level, levelling up keeps them matched, leaves xp below the threshold, keeps the total xp earned unchanged, and keeps the threshold at 50 or more |
| Pickup.CheckCollectibles | pixel-quest/game.js:151-163 | The list left behind is exactly the items off the player's tile, in their original order. Coins grow by exactly the value of the removed items. The level never falls |
| Pickup.PickupIsOneLevelUp | pixel-quest/game.js:152-163 | From a settled progress (xp below the threshold), levelling up after each removed item equals crediting all removed coins and xp at once and levelling up once |
| Pickup.PickupKeepsLedger | pixel-quest/game.js:152-163 | Pickup keeps the ledger and leaves xp below the threshold. The total xp earned grows by exactly the xp of the removed items |
| Pickup.NothingToPick | pixel-quest/game.js:152-163 | With no item on the tile, the list and the progress are unchanged |
| Chests.SpawnTriggers | pixel-quest/game.js:84-89 | Exactly two closed chests, at (2, 2) and (9, 7), both on walkable tiles |
| Chests.OpenFrom | pixel-quest/game.js:172-191 | Each closed chest on the tile becomes open. Every other chest is unchanged. Coins and level never fall |
| Chests.OpenedIndices | pixel-quest/game.js:173-175 | A position is listed exactly when it lies in the list and the chest there is closed and on the player's tile |
| Chests.OpenFromResets | pixel-quest/game.js:174-189 | The resets scheduled, in order, are exactly the positions of the chests that open, whatever the progress |
| Chests.NoResetNoPay | pixel-quest/game.js:174 | A visit that schedules no reset leaves the progress unchanged, so open chests and chests on other tiles pay nothing |
| Chests.CheckTriggers | pixel-quest/game.js:172-191 | Over the whole chest list: only closed chests on the tile open, their indices are exactly the resets due, and if none opens the progress is unchanged |
| Chests.OpenFromKeepsLedger | pixel-quest/game.js:177-183 | Opening chests keeps the ledger. The total xp earned grows by exactly 25 per opened chest |
| Chests.OpenFromPaysAtLeast | pixel-quest/game.js:177-178 | Each opened chest pays at least 20 + 5 × (level before the step) coins |
| Chests.NoChestOpens | pixel-quest/game.js:174 | With no closed chest on the tile, the chests and the progress are unchanged and no reset is due |
| Chests.SingleChestPays | pixel-quest/game.js:174-183 | When exactly one chest opens, the progress is the old one plus 20 + 5 × level coins and 25 xp, levelled up. The one reset due is for that chest |
| Chests.ResetChest | pixel-quest/game.js:186-189 | The deferred reset closes the named chest, keeps its position, and leaves every other chest as it was |
| Chests.OpenResetOpen | pixel-quest/game.js:174-189 | A chest that just opened cannot open again until its reset closes it |
| Spawn.FirstAccepted | pixel-quest/game.js:67-72 | The retry loop keeps the first draw that is walkable, not the player's tile and not already occupied. Every earlier draw was rejected. The result is absent exactly when every draw is rejected |
| Spawn.RetryExample | pixel-quest/game.js:67-72 | With the player at (5, 5), the player's own tile and the water tile (8, 3) are rejected and the grass tile (4, 1) is kept |
| Spawn.AcceptedExtends | pixel-quest/game.js:70-79 | Adding an item on an accepted draw keeps every item on a distinct interior walkable tile other than the player's, with a value/xp pair from the table |
| Spawn.Place | pixel-quest/game.js:65-80 | If placing succeeds, placing `count` items extends the list by exactly `count` valid items. The n-th new item has the n-th drawn type, and the new items lie on drawn cells, taken in draw order |
| Spawn.PlaceSkipsRejected | pixel-quest/game.js:67-72 | A rejected first draw is retried past: placing from the stream equals placing from the stream without that draw |
| Spawn.PlaceTakesAccepted | pixel-quest/game.js:65-80 | An accepted first draw is kept with the first drawn item type, and placing goes on from the next draw against the list that now holds it |
| Spawn.RepeatedDrawSkipped | pixel-quest/game.js:70-72 | A draw repeating the cell just filled is rejected as occupied and skipped, and placing goes on from the draw after it |
| Spawn.PlaceSucceeds | pixel-quest/game.js:65-80 | If the first `count` draws are distinct cells that each pass the retry test, placing succeeds with exactly those cells, in order, carrying the drawn item types |
| Spawn.PlaceExtends | pixel-quest/game.js:65-80 | An item on the accepted draw, followed by the items the later draws place, extends the list with the drawn types and with cells in draw order |
| Spawn.RestAccepted | pixel-quest/game.js:67-72 | Distinct draws that each pass the retry test still pass after an item is placed on the first of them |
| Items.AwayAppend | pixel-quest/game.js:152-163 | Filtering a concatenation gives the two filtered parts in their original order |
| Items.AtAppend | pixel-quest/game.js:152-153 | The items on a tile are taken from a concatenation in list order |
| Spawn.SpawnCollectibles | pixel-quest/game.js:56-81 | If the spawn succeeds, the result is exactly 5 items on distinct tiles with 1 ≤ x ≤ 10 and 1 ≤ y ≤ 8. Each item is on a walkable tile, not the player's, and has the value/xp pair of its drawn table entry |
| Spawn.SpawnSkipsRejected | pixel-quest/game.js:65-72 | A rejected first draw (a wall or water tile, or the player's tile) is skipped: the spawn equals the spawn from the remaining draws |
| Spawn.SpawnSucceeds | pixel-quest/game.js:56-81 | If the first five draws are distinct walkable cells other than the player's, the spawn succeeds and places exactly those five cells, in order, with the drawn types |
| Controls.Delta | pixel-quest/game.js:332-335 | Each direction is a unit step along one axis |
| Controls.KeyDirection | pixel-quest/game.js:330-337 | 'ArrowUp'/'w', 'ArrowDown'/'s', 'ArrowLeft'/'a' and 'ArrowRight'/'d' select up, down, left and right, and each direction is selected by exactly those two keys |
| Controls.BoundKeys | pixel-quest/game.js:331-336 | A key selects a step exactly when it is one of the eight bound keys |
| Controls.DeltasAreDistinctUnitSteps | pixel-quest/game.js:332-335 | The four steps are distinct and each has length one |
| Controls.KeySteps | pixel-quest/game.js:332-335 | 'ArrowUp'/'w' step (0, -1), 'ArrowDown'/'s' step (0, 1), 'ArrowLeft'/'a' step (-1, 0) and 'ArrowRight'/'d' step (1, 0) |
| Game.MovePlayer | pixel-quest/game.js:130-148 | If the target is out of bounds, a wall or water, the state is unchanged and nothing is scheduled. Otherwise the player is at exactly (x+dx, y+dy) and the collectibles are exactly those off the new tile. Each closed chest on the new tile opens and every other chest is unchanged. The progress is that of the chest rule applied after the pickup rule. A respawn is scheduled exactly when the list is left empty, and a chest reset exactly for each closed chest on the new tile |
| Game.StepWithoutChest | pixel-quest/game.js:142-146 | A step where no chest opens leaves the chests unchanged and schedules no chest reset. The player gets exactly the coins and xp of the picked-up items, levelled up once |
| Game.HandleKey | pixel-quest/game.js:330-337 | An unbound key changes nothing. A bound key runs the full step of its direction (move, pickup, chests and scheduled actions), which moves the player onto a walkable target and leaves the state unchanged if the target is blocked |
| Game.KeyExamples | pixel-quest/game.js:130-140 | From (5, 5), ArrowUp reaches (5, 4). From (1, 1), 'a' hits the wall at (0, 1) and nothing changes |
| Game.MoveKeepsValid | pixel-quest/game.js:130-192 | A step keeps the state invariant: the player on a walkable tile, the ledger settled, the chest layout, and at most 5 collectibles on distinct walkable tiles other than the player's. Every reset it schedules names an existing chest |
| Game.AwayKeepsPlacement | pixel-quest/game.js:152-163 | After the pickup filter, no collectible lies on the player's new tile and the rest keep their valid placement |
| Game.MoveLedger | pixel-quest/game.js:151-192 | A successful step raises the total xp earned by exactly the picked-up xp plus 25 for each chest reset it schedules |
| Game.ChestAfterPickup | pixel-quest/game.js:142-146 | Stepping onto a closed chest opens it and schedules its reset. Coins become exactly the old coins plus the picked-up values plus 20 + 5 × level, where level is the level reached after that step's pickups |
| Game.Respawn | pixel-quest/game.js:165-168 | A fired respawn replaces only the collectible list, with a valid spawn around the player's current tile. It fails exactly when the spawn with the same draws fails |
| Game.RespawnSucceeds | pixel-quest/game.js:165-168 | A fired respawn whose first five draws are distinct walkable cells other than the player's succeeds, and places exactly those cells |
| Game.CloseChestAt | pixel-quest/game.js:186-189 | A fired chest reset closes that chest and changes nothing else in the state |
| Game.Init | pixel-quest/game.js:339-341 | The game starts by spawning the collectibles and then the chests. The start state has the player at (5, 5), 0 coins, 0 xp, level 1, threshold 50, five spawned collectibles and the two closed chests, and is valid |
| Game.StartIsValid | pixel-quest/game.js:14-22 | The starting values (player at (5, 5), 0 coins, 0 xp, level 1, threshold 50) with any valid spawn and the two chests form a valid state |
| Game.InitSucceeds | pixel-quest/game.js:339-341 | If the first five draws are distinct walkable cells other than (5, 5), the game starts, with exactly those cells holding the drawn item types |
| Game.StartExists | pixel-quest/game.js:339-341 | A concrete stream of five draws starts the game |
| Game.StartOnFloor | pixel-quest/game.js:20-22 | The start tile (5, 5) is walkable |
| Game.Apply | pixel-quest/game.js:330-337 | A key press applies that key's step. A fired respawn applies the respawn, and a fired chest reset closes that chest. Each event keeps the state valid and never lowers coins, level or total xp earned |
| Game.Run | pixel-quest/game.js:318-337 | Any sequence of key presses, respawns and chest resets keeps the state valid and never lowers coins, level or total xp earned |
| Game.PlayerStaysInside | pixel-quest/game.js:135-140 | However the game is played, the player stays in bounds, off every wall and water tile, and off the outer ring |

## Left out

- Canvas drawing (`drawMap`, `drawPlayer`, `drawCollectibles`, `drawTriggers`, `drawParticles`, `gameLoop`) is left out because it is output only.
- DOM work (`updateHUD`, `showReward`, popup timing) and event-listener wiring are left out because they are I/O. The touch and click buttons call the same four steps as the keys, so `HandleKey` covers them.
- The particle system (`createParticles`, `updateParticles`) is left out because it is floating-point and cosmetic.
- Emoji strings, `animOffset` and the bobbing animation are left out because they are cosmetic.
- `Math.random` is replaced by input streams of draws, and the unbounded `do…while` retry works through those finite streams. The game keeps drawing until a cell is accepted. The model returns None when the stream runs out first.
- Spawn.Place: the retry loop is stated draw by draw: a rejected first draw is skipped (`Spawn.PlaceSkipsRejected`), and an accepted first draw is kept before placing goes on (`Spawn.PlaceTakesAccepted`). Success is stated exactly for streams whose first draws are distinct and acceptable (`Spawn.PlaceSucceeds`). The model does not state that a stream which runs out could always be completed by more draws, because that would need a count of the free walkable cells at every step.
- Spawn.SpawnCollectibles: success is stated for five distinct acceptable draws (`Spawn.SpawnSucceeds`), and a rejected first draw is skipped (`Spawn.SpawnSkipsRejected`); later draws follow the draw-by-draw steps of `Spawn.Place`. The model does not state that a stream which runs out could always be completed by more draws.
- Game.Apply: a respawn whose draws run out, or a reset naming no chest, leaves the state as it was. The game never reaches either case.
- `setTimeout` delays (1 s respawn, 10 s chest reset) are not modelled as time. The scheduled actions are returned as `Deferred` values, and `Run` lets them fire in any order at any time.
- JavaScript numbers are doubles. The model uses unbounded naturals and does not model precision loss above 2^53.
- Chests.OpenFromPaysAtLeast: when several chests could open on the same tile, only a lower bound on the coins paid is stated. The exact amount is stated for a single opening chest (`Chests.SingleChestPays`, `Game.ChestAfterPickup`). This is the only case the game's two chests on different tiles can produce.

=== FILE: chests.dfy ===
/**
 Chests: the two fixed chests of the level, the opening rule run after
 every successful step, and the deferred reset that closes a chest again.
 */
module Chests {
  import opened Grid
  import opened Items
  import opened Progression

  /** Xp granted by opening a chest. */
  const ChestXp: nat := 25

  /** Coins granted by opening a chest at the given level. */
  function ChestBonus(level: nat): nat {
    20 + level * 5
  }

  /** The chests placed at the start of the game: closed, at (2, 2) and (9, 7). */
  function SpawnTriggers(): (r: seq<Chest>)
    ensures |r| == 2
    ensures r[0] == Chest(2, 2, false) && r[1] == Chest(9, 7, false)
    ensures forall i :: 0 <= i < |r| ==> !r[i].isOpen && Walkable(r[i].x, r[i].y)
  {
    [Chest(2, 2, false), Chest(9, 7, false)]
  }

  /** A chest opens when the player stands on it and it is closed. */
  predicate Opens(t: Chest, x: int, y: int) {
    t.x == x && t.y == y && !t.isOpen
  }

  /** The chests after the opening rule, the progress, and the chests whose reset is now due. */
  datatype Opened = Opened(chests: seq<Chest>, progress: Progress, resets: seq<nat>)

  /**
   Visits the chests in order from list index `base`. Every closed chest on
   the tile is opened and pays ChestBonus at the level in force at that
   moment plus ChestXp, followed by a run of the level-up loop; every other
   chest is left as it was. The indices of the opened chests are returned so
   that their resets can be scheduled.
   */
  function OpenFrom(chests: seq<Chest>, x: int, y: int, p: Progress, base: nat): (r: Opened)
    requires p.xpToNext >= 1
    ensures |r.chests| == |chests|
    ensures forall i :: 0 <= i < |chests| ==>
      r.chests[i] == if Opens(chests[i], x, y) then chests[i].(isOpen := true) else chests[i]
    ensures r.progress.coins >= p.coins
    ensures r.progress.level >= p.level
    ensures r.progress.xpToNext >= p.xpToNext
    decreases |chests|
  {
    if |chests| == 0 then
      Opened([], p, [])
    else
      var t := chests[0];
      if Opens(t, x, y) then
        var p1 := LevelUp(Credit(p, ChestBonus(p.level), ChestXp));
        var rest := OpenFrom(chests[1..], x, y, p1, base + 1);
        Opened([t.(isOpen := true)] + rest.chests, rest.progress, [base] + rest.resets)
      else
        var rest := OpenFrom(chests[1..], x, y, p, base + 1);
        Opened([t] + rest.chests, rest.progress, rest.resets)
  }

  /** The list indices, counted from `base`, of the chests that open on tile (x, y). */
  function OpenedIndices(chests: seq<Chest>, x: int, y: int, base: nat): (r: seq<nat>)
    ensures forall j :: j in r <==> base <= j < base + |chests| && Opens(chests[j - base], x, y)
    decreases |chests|
  {
    if |chests| == 0 then []
    else
      var rest := OpenedIndices(chests[1..], x, y, base + 1);
      if Opens(chests[0], x, y) then [base] + rest else rest
  }

  /** The resets scheduled are exactly the list indices of the chests that opened. */
  lemma {:induction false} OpenFromResets(chests: seq<Chest>, x: int, y: int, p: Progress, base: nat)
    requires p.xpToNext >= 1
    ensures OpenFrom(chests, x, y, p, base).resets == OpenedIndices(chests, x, y, base)
    decreases |chests|
  {
    if |chests| > 0 {
      var p1 := if Opens(chests[0], x, y) then LevelUp(Credit(p, ChestBonus(p.level), ChestXp)) else p;
      OpenFromResets(chests[1..], x, y, p1, base + 1);
    }
  }

  /** A visit that schedules no reset leaves the progress as it was. */
  lemma {:induction false} NoResetNoPay(chests: seq<Chest>, x: int, y: int, p: Progress, base: nat)
    requires p.xpToNext >= 1
    ensures var r := OpenFrom(chests, x, y, p, base);
      |r.resets| == 0 ==> r.progress == p
    decreases |chests|
  {
    if |chests| > 0 {
      var t := chests[0];
      if !Opens(t, x, y) {
        NoResetNoPay(chests[1..], x, y, p, base + 1);
      }
    }
  }

  /** The opening rule over the whole chest list. */
  function CheckTriggers(chests: seq<Chest>, x: int, y: int, p: Progress): (r: Opened)
    requires p.xpToNext >= 1
    ensures |r.chests| == |chests|
    ensures forall i :: 0 <= i < |chests| ==>
      r.chests[i] == if Opens(chests[i], x, y) then chests[i].(isOpen := true) else chests[i]
    ensures forall j :: j in r.resets <==> 0 <= j < |chests| && Opens(chests[j], x, y)
    ensures r.progress.coins >= p.coins
    ensures r.progress.level >= p.level
    ensures r.progress.xpToNext >= p.xpToNext
    ensures |r.resets| == 0 ==> r.progress == p
  {
    OpenFromResets(chests, x, y, p, 0);
    NoResetNoPay(chests, x, y, p, 0);
    OpenFrom(chests, x, y, p, 0)
  }

  /**
   Opening chests keeps the xp ledger, and the total xp earned grows by
   exactly ChestXp per opened chest.
   */
  lemma {:induction false} OpenFromKeepsLedger(chests: seq<Chest>, x: int, y: int, p: Progress, base: nat)
    requires Settled(p)
    ensures Settled(OpenFrom(chests, x, y, p, base).progress)
    ensures TotalXp(OpenFrom(chests, x, y, p, base).progress)
      == TotalXp(p) + |OpenFrom(chests, x, y, p, base).resets| * ChestXp
    decreases |chests|
  {
    if |chests| > 0 {
      var t := chests[0];
      if Opens(t, x, y) {
        var p1 := LevelUp(Credit(p, ChestBonus(p.level), ChestXp));
        LevelUpKeepsLedger(Credit(p, ChestBonus(p.level), ChestXp));
        OpenFromKeepsLedger(chests[1..], x, y, p1, base + 1);
      } else {
        OpenFromKeepsLedger(chests[1..], x, y, p, base + 1);
      }
    }
  }

  /**
   Every opened chest pays at least ChestBonus at the level the player had
   before the step, since levels only rise while chests are visited.
   */
  lemma {:induction false} OpenFromPaysAtLeast(chests: seq<Chest>, x: int, y: int, p: Progress, base: nat)
    requires p.xpToNext >= 1
    ensures var r := OpenFrom(chests, x, y, p, base);
      r.progress.coins >= p.coins + |r.resets| * ChestBonus(p.level)
    decreases |chests|
  {
    if |chests| > 0 {
      var t := chests[0];
      if Opens(t, x, y) {
        var p1 := LevelUp(Credit(p, ChestBonus(p.level), ChestXp));
        OpenFromPaysAtLeast(chests[1..], x, y, p1, base + 1);
        var rest := OpenFrom(chests[1..], x, y, p1, base + 1);
        var k := |rest.resets|;
        var a, b := ChestBonus(p1.level), ChestBonus(p.level);
        assert OpenFrom(chests, x, y, p, base) == Opened([t.(isOpen := true)] + rest.chests, rest.progress, [base] + rest.resets);
        assert p1.coins == p.coins + b;
        assert rest.progress.coins >= p1.coins + k * a;
        MulMonotone(k, a, b);
        MulSucc(k, b);
      } else {
        OpenFromPaysAtLeast(chests[1..], x, y, p, base + 1);
        var rest := OpenFrom(chests[1..], x, y, p, base + 1);
        assert OpenFrom(chests, x, y, p, base) == Opened([t] + rest.chests, rest.progress, rest.resets);
      }
    }
  }

  lemma MulSucc(k: nat, b: nat)
    ensures (k + 1) * b == k * b + b
  {
  }

  lemma MulMonotone(k: nat, a: nat, b: nat)
    requires a >= b
    ensures k * a >= k * b
  {
  }

  /** No closed chest on the tile: the chests and the progress are untouched and no reset is due. */
  lemma {:induction false} NoChestOpens(chests: seq<Chest>, x: int, y: int, p: Progress, base: nat)
    requires p.xpToNext >= 1
    requires forall j :: 0 <= j < |chests| ==> !Opens(chests[j], x, y)
    ensures OpenFrom(chests, x, y, p, base) == Opened(chests, p, [])
    decreases |chests|
  {
    if |chests| > 0 {
      NoChestOpens(chests[1..], x, y, p, base + 1);
      assert chests == [chests[0]] + chests[1..];
    }
  }

  /**
   When exactly one chest on the list opens, the player is paid exactly
   ChestBonus at the current level plus ChestXp, levelled up once.
   */
  lemma {:induction false} SingleChestPays(chests: seq<Chest>, x: int, y: int, p: Progress, base: nat, i: nat)
    requires p.xpToNext >= 1
    requires i < |chests| && Opens(chests[i], x, y)
    requires forall j :: 0 <= j < |chests| && j != i ==> !Opens(chests[j], x, y)
    ensures OpenFrom(chests, x, y, p, base).progress == LevelUp(Credit(p, ChestBonus(p.level), ChestXp))
    ensures OpenFrom(chests, x, y, p, base).resets == [base + i]
    decreases |chests|
  {
    var r := OpenFrom(chests, x, y, p, base);
    if i == 0 {
      var p1 := LevelUp(Credit(p, ChestBonus(p.level), ChestXp));
      var rest := OpenFrom(chests[1..], x, y, p1, base + 1);
      forall j | 0 <= j < |chests[1..]| ensures !Opens(chests[1..][j], x, y) {
        assert chests[1..][j] == chests[j + 1];
      }
      NoChestOpens(chests[1..], x, y, p1, base + 1);
    } else {
      assert !Opens(chests[0], x, y);
      SingleChestPays(chests[1..], x, y, p, base + 1, i - 1);
    }
  }

  /** The deferred reset: the chest at index i is closed again and every other chest is unchanged. */
  function ResetChest(chests: seq<Chest>, i: nat): (r: seq<Chest>)
    requires i < |chests|
    ensures |r| == |chests|
    ensures !r[i].isOpen && r[i].x == chests[i].x && r[i].y == chests[i].y
    ensures forall j :: 0 <= j < |chests| && j != i ==> r[j] == chests[j]
  {
    chests[i := chests[i].(isOpen := false)]
  }

  /** A chest fails the opening test right after opening and passes it again after the reset. */
  lemma OpenResetOpen(chests: seq<Chest>, i: nat, p: Progress)
    requires i < |chests| && Opens(chests[i], chests[i].x, chests[i].y)
    requires p.xpToNext >= 1
    ensures var once := CheckTriggers(chests, chests[i].x, chests[i].y, p);
      && !Opens(once.chests[i], chests[i].x, chests[i].y)
      && Opens(ResetChest(once.chests, i)[i], chests[i].x, chests[i].y)
  {
  }
}

=== FILE: controls.dfy ===
/**
 The keyboard dispatch: arrow keys and W/A/S/D select one of four unit
 steps; every other key selects nothing. The on-screen buttons call the
 same four steps.
 */
module Controls {
  import opened Options

  datatype Direction = Up | Down | Left | Right

  /** The step a direction makes: y grows downwards, as in the map rows. */
  function Delta(d: Direction): (r: (int, int))
    ensures (r.0 == 0 || r.1 == 0) && (r.0 == 1 || r.0 == -1 || r.1 == 1 || r.1 == -1)
  {
    match d
    case Up => (0, -1)
    case Down => (0, 1)
    case Left => (-1, 0)
    case Right => (1, 0)
  }

  /** The direction bound to a key, or None when the key is not bound. */
  function KeyDirection(key: string): (r: Option<Direction>)
    ensures r == Some(Up) <==> key == "ArrowUp" || key == "w"
    ensures r == Some(Down) <==> key == "ArrowDown" || key == "s"
    ensures r == Some(Left) <==> key == "ArrowLeft" || key == "a"
    ensures r == Some(Right) <==> key == "ArrowRight" || key == "d"
  {
    if key == "ArrowUp" || key == "w" then Some(Up)
    else if key == "ArrowDown" || key == "s" then Some(Down)
    else if key == "ArrowLeft" || key == "a" then Some(Left)
    else if key == "ArrowRight" || key == "d" then Some(Right)
    else None
  }

  /** The four directions make four different steps, each of length one. */
  lemma DeltasAreDistinctUnitSteps(d: Direction, e: Direction)
    ensures var (dx, dy) := Delta(d); dx * dx + dy * dy == 1
    ensures d != e ==> Delta(d) != Delta(e)
  {
  }

  /** The bound keys, and only they, produce a step. */
  lemma BoundKeys(key: string)
    ensures KeyDirection(key).Some?
      <==> key in ["ArrowUp", "w", "ArrowDown", "s", "ArrowLeft", "a", "ArrowRight", "d"]
  {
  }

  /** The step each bound key makes: up and down move along y, left and right along x. */
  lemma KeySteps(key: string)
    ensures key == "ArrowUp" || key == "w" ==> KeyDirection(key).Some? && Delta(KeyDirection(key).value) == (0, -1)
    ensures key == "ArrowDown" || key == "s" ==> KeyDirection(key).Some? && Delta(KeyDirection(key).value) == (0, 1)
    ensures key == "ArrowLeft" || key == "a" ==> KeyDirection(key).Some? && Delta(KeyDirection(key).value) == (-1, 0)
    ensures key == "ArrowRight" || key == "d" ==> KeyDirection(key).Some? && Delta(KeyDirection(key).value) == (1, 0)
  {
  }
}

=== FILE: game.dfy ===
/**
 The whole game state and its transitions: a player step with its pickup
 and chest rules, the key dispatch, the two deferred actions the game
 schedules with timers (respawning the collectibles, closing a chest
 again), and runs of such events from the initial state.
 */
module Game {
  import opened Options
  import opened Grid
  import opened Items
  import opened Progression
  import opened Pickup
  import opened Chests
  import opened Spawn
  import opened Controls

  /** Where the player stands when the game starts. */
  const StartX: int := 5
  const StartY: int := 5

  datatype GameState = GameState(
    x: int,
    y: int,
    progress: Progress,
    collectibles: seq<Collectible>,
    chests: seq<Chest>)

  /** An action the game schedules on a timer instead of doing at once. */
  datatype Deferred =
    | RespawnCollectibles     // one second after the list was found empty
    | CloseChest(index: nat)  // ten seconds after the chest at `index` opened

  /** The state after a step and the actions it scheduled, in scheduling order. */
  datatype Step = Step(state: GameState, deferred: seq<Deferred>)

  /** The chests keep the layout SpawnTriggers gave them: two chests, at (2, 2) and (9, 7). */
  predicate ChestLayout(chests: seq<Chest>) {
    && |chests| == 2
    && chests[0].x == 2 && chests[0].y == 2
    && chests[1].x == 9 && chests[1].y == 7
  }

  /**
   The state invariant: the player stands on a walkable tile; the xp ledger
   holds and xp is below the threshold; the chests keep their layout; and at
   most five collectibles lie on distinct interior walkable tiles other than
   the player's, each from the item-type table.
   */
  predicate Valid(s: GameState) {
    && Walkable(s.x, s.y)
    && Settled(s.progress)
    && ChestLayout(s.chests)
    && |s.collectibles| <= SpawnCount
    && Placement(s.collectibles, s.x, s.y)
  }

  function ChestResets(indices: seq<nat>): (r: seq<Deferred>)
    ensures |r| == |indices|
    ensures forall i :: 0 <= i < |r| ==> r[i] == CloseChest(indices[i])
  {
    if |indices| == 0 then [] else [CloseChest(indices[0])] + ChestResets(indices[1..])
  }

  /** How many chest resets a list of scheduled actions holds. */
  function ResetCount(ds: seq<Deferred>): nat {
    if |ds| == 0 then 0 else (if ds[0].CloseChest? then 1 else 0) + ResetCount(ds[1..])
  }

  lemma {:induction false} ResetCountOfResets(indices: seq<nat>)
    ensures ResetCount(ChestResets(indices)) == |indices|
    ensures ResetCount([RespawnCollectibles] + ChestResets(indices)) == |indices|
    decreases |indices|
  {
    if |indices| > 0 {
      ResetCountOfResets(indices[1..]);
      assert ChestResets(indices)[1..] == ChestResets(indices[1..]);
    }
    assert ([RespawnCollectibles] + ChestResets(indices))[1..] == ChestResets(indices);
  }

  /**
   movePlayer: the step to (x + dx, y + dy) happens only when that cell is
   walkable; otherwise nothing changes and nothing is scheduled. After a
   step the pickup rule runs, then the chest rule, on the new tile; a
   respawn is scheduled when the collectible list is then empty, and a
   reset for each chest opened.
   */
  function MovePlayer(s: GameState, dx: int, dy: int): (r: Step)
    requires s.progress.xpToNext >= 1
    ensures !Walkable(s.x + dx, s.y + dy) ==> r == Step(s, [])
    ensures Walkable(s.x + dx, s.y + dy) ==>
      && r.state.x == s.x + dx && r.state.y == s.y + dy
      && r.state.collectibles == Away(s.collectibles, s.x + dx, s.y + dy)
      && (RespawnCollectibles in r.deferred <==> |r.state.collectibles| == 0)
    ensures Walkable(s.x + dx, s.y + dy) ==>
      var picked := CheckCollectibles(s.collectibles, s.x + dx, s.y + dy, s.progress);
      r.state.progress == CheckTriggers(s.chests, s.x + dx, s.y + dy, picked.progress).progress
    ensures forall i: nat :: CloseChest(i) in r.deferred <==>
      Walkable(s.x + dx, s.y + dy) && i < |s.chests| && Opens(s.chests[i], s.x + dx, s.y + dy)
    ensures |r.state.chests| == |s.chests|
    ensures Walkable(s.x + dx, s.y + dy) ==> forall i :: 0 <= i < |s.chests| ==>
      (r.state.chests[i] == if Opens(s.chests[i], s.x + dx, s.y + dy) then s.chests[i].(isOpen := true) else s.chests[i])
    ensures r.state.progress.coins >= s.progress.coins
    ensures r.state.progress.level >= s.progress.level
    ensures r.state.progress.xpToNext >= s.progress.xpToNext
  {
    var nx, ny := s.x + dx, s.y + dy;
    if !Walkable(nx, ny) then
      Step(s, [])
    else
      var picked := CheckCollectibles(s.collectibles, nx, ny, s.progress);
      var respawn := if |picked.items| == 0 then [RespawnCollectibles] else [];
      var visit := CheckTriggers(s.chests, nx, ny, picked.progress);
      var resets := ChestResets(visit.resets);
      assert forall i: nat :: CloseChest(i) in resets <==> i in visit.resets by {
        forall i: nat ensures CloseChest(i) in resets <==> i in visit.resets {
          if i in visit.resets {
            var k :| 0 <= k < |visit.resets| && visit.resets[k] == i;
            assert resets[k] == CloseChest(i);
          }
        }
      }
      Step(GameState(nx, ny, visit.progress, picked.items, visit.chests), respawn + resets)
  }

  /** A key press: a bound key makes its step, any other key changes nothing. */
  function HandleKey(s: GameState, key: string): (r: Step)
    requires s.progress.xpToNext >= 1
    ensures KeyDirection(key).None? ==> r == Step(s, [])
    ensures KeyDirection(key).Some? ==>
      var (dx, dy) := Delta(KeyDirection(key).value);
      && (!Walkable(s.x + dx, s.y + dy) ==> r == Step(s, []))
      && (Walkable(s.x + dx, s.y + dy) ==> r.state.x == s.x + dx && r.state.y == s.y + dy)
    ensures KeyDirection(key).Some? ==>
      r == MovePlayer(s, Delta(KeyDirection(key).value).0, Delta(KeyDirection(key).value).1)
  {
    match KeyDirection(key)
    case None => Step(s, [])
    case Some(d) => MovePlayer(s, Delta(d).0, Delta(d).1)
  }

  /**
   A step keeps the state invariant, and every chest reset it schedules
   names an existing chest.
   */
  lemma MoveKeepsValid(s: GameState, dx: int, dy: int)
    requires Valid(s)
    ensures Valid(MovePlayer(s, dx, dy).state)
    ensures forall e :: e in MovePlayer(s, dx, dy).deferred && e.CloseChest? ==> e.index < |s.chests|
  {
    var nx, ny := s.x + dx, s.y + dy;
    if Walkable(nx, ny) {
      var r := MovePlayer(s, dx, dy);
      var picked := CheckCollectibles(s.collectibles, nx, ny, s.progress);
      PickupKeepsLedger(s.collectibles, nx, ny, s.progress);
      OpenFromKeepsLedger(s.chests, nx, ny, picked.progress, 0);
      AwayKeepsPlacement(s.collectibles, s.x, s.y, nx, ny);
      SplitIsPartition(s.collectibles, nx, ny);
    }
  }

  /** Dropping the items on the player's new tile keeps a placement valid for that tile. */
  lemma AwayKeepsPlacement(items: seq<Collectible>, px: int, py: int, nx: int, ny: int)
    requires Placement(items, px, py)
    ensures Placement(Away(items, nx, ny), nx, ny)
  {
    var r := Away(items, nx, ny);
    AwayKeepsDistinct(items, nx, ny);
    forall i | 0 <= i < |r|
      ensures Interior(r[i].x, r[i].y) && Walkable(r[i].x, r[i].y) && !IsAt(r[i], nx, ny) && FromTable(r[i])
    {
      assert r[i] in r;
    }
  }

  /**
   A step's xp accounting: the total xp earned grows by exactly the xp of
   the collectibles picked up plus ChestXp for each chest opened.
   */
  lemma MoveLedger(s: GameState, dx: int, dy: int)
    requires Settled(s.progress)
    requires Walkable(s.x + dx, s.y + dy)
    ensures var r := MovePlayer(s, dx, dy);
      TotalXp(r.state.progress) == TotalXp(s.progress)
        + XpSum(At(s.collectibles, s.x + dx, s.y + dy))
        + ChestXp * ResetCount(r.deferred)
  {
    var nx, ny := s.x + dx, s.y + dy;
    var picked := CheckCollectibles(s.collectibles, nx, ny, s.progress);
    var respawn := if |picked.items| == 0 then [RespawnCollectibles] else [];
    var visit := CheckTriggers(s.chests, nx, ny, picked.progress);
    var r := MovePlayer(s, dx, dy);
    assert r.state.progress == visit.progress;
    assert r.deferred == respawn + ChestResets(visit.resets);
    PickupKeepsLedger(s.collectibles, nx, ny, s.progress);
    OpenFromKeepsLedger(s.chests, nx, ny, picked.progress, 0);
    assert TotalXp(visit.progress) == TotalXp(picked.progress) + |visit.resets| * ChestXp;
    ResetCountOfResets(visit.resets);
    if respawn == [] {
      assert r.deferred == ChestResets(visit.resets);
    }
    assert ResetCount(r.deferred) == |visit.resets|;
  }

  /**
   A step onto a tile where no chest opens: the chests stay as they were,
   no chest reset is scheduled, and the player gets exactly the coins and
   xp of the collectibles picked up, levelled up once.
   */
  lemma StepWithoutChest(s: GameState, dx: int, dy: int)
    requires s.progress.xpToNext >= 1 && s.progress.xp < s.progress.xpToNext
    requires Walkable(s.x + dx, s.y + dy)
    requires forall j :: 0 <= j < |s.chests| ==> !Opens(s.chests[j], s.x + dx, s.y + dy)
    ensures var r := MovePlayer(s, dx, dy);
      var here := At(s.collectibles, s.x + dx, s.y + dy);
      && r.state.chests == s.chests
      && (forall i: nat :: CloseChest(i) !in r.deferred)
      && r.state.progress == LevelUp(Credit(s.progress, ValueSum(here), XpSum(here)))
      && r.state.progress.coins == s.progress.coins + ValueSum(here)
  {
    var nx, ny := s.x + dx, s.y + dy;
    var picked := CheckCollectibles(s.collectibles, nx, ny, s.progress);
    NoChestOpens(s.chests, nx, ny, picked.progress, 0);
    PickupIsOneLevelUp(s.collectibles, nx, ny, s.progress);
    var visit := CheckTriggers(s.chests, nx, ny, picked.progress);
    assert visit == Opened(s.chests, picked.progress, []);
    var r := MovePlayer(s, dx, dy);
    assert r.state.progress == picked.progress;
    assert r.state.chests == s.chests;
  }

  /**
   Stepping onto a closed chest's tile: the chest opens, its reset is
   scheduled, and the player is paid the chest bonus at the level reached
   after the pickups of the same step, plus ChestXp, on top of the pickups.
   */
  lemma ChestAfterPickup(s: GameState, dx: int, dy: int, i: nat)
    requires s.progress.xpToNext >= 1 && ChestLayout(s.chests)
    requires i < |s.chests| && Opens(s.chests[i], s.x + dx, s.y + dy)
    ensures var nx, ny := s.x + dx, s.y + dy;
      var picked := CheckCollectibles(s.collectibles, nx, ny, s.progress);
      var r := MovePlayer(s, dx, dy);
      && r.state.chests[i].isOpen
      && CloseChest(i) in r.deferred
      && r.state.progress
        == LevelUp(Credit(picked.progress, ChestBonus(picked.progress.level), ChestXp))
      && r.state.progress.coins
        == s.progress.coins + ValueSum(At(s.collectibles, nx, ny)) + ChestBonus(picked.progress.level)
  {
    var nx, ny := s.x + dx, s.y + dy;
    assert Walkable(nx, ny) by {
      assert i == 0 || i == 1;
    }
    var picked := CheckCollectibles(s.collectibles, nx, ny, s.progress);
    forall j | 0 <= j < |s.chests| && j != i
      ensures !Opens(s.chests[j], nx, ny)
    {
      assert i == 0 || i == 1;
    }
    SingleChestPays(s.chests, nx, ny, picked.progress, 0, i);
    var visit := CheckTriggers(s.chests, nx, ny, picked.progress);
    assert visit == OpenFrom(s.chests, nx, ny, picked.progress, 0);
    var r := MovePlayer(s, dx, dy);
    assert r.state.progress == visit.progress;
    assert r.state.chests == visit.chests;
  }

  /** Firing a scheduled respawn with the given draws: only the collectible list changes. */
  function Respawn(s: GameState, draws: seq<Cell>, kinds: seq<nat>): (r: Option<GameState>)
    requires DrawsInRange(draws) && KindsInRange(kinds) && |kinds| >= SpawnCount
    ensures r.Some? ==> r.value == s.(collectibles := r.value.collectibles)
    ensures r.Some? ==> ValidSpawn(r.value.collectibles, s.x, s.y)
    ensures r.None? <==> SpawnCollectibles(draws, kinds, s.x, s.y).None?
  {
    match SpawnCollectibles(draws, kinds, s.x, s.y)
    case None => None
    case Some(items) => Some(s.(collectibles := items))
  }

  /** Firing a scheduled chest reset: that chest closes, nothing else changes. */
  function CloseChestAt(s: GameState, i: nat): (r: GameState)
    requires i < |s.chests|
    ensures r == s.(chests := r.chests)
    ensures |r.chests| == |s.chests|
    ensures !r.chests[i].isOpen && r.chests[i].x == s.chests[i].x && r.chests[i].y == s.chests[i].y
    ensures forall j :: 0 <= j < |s.chests| && j != i ==> r.chests[j] == s.chests[j]
  {
    s.(chests := ResetChest(s.chests, i))
  }

  lemma StartIsValid(items: seq<Collectible>)
    requires ValidSpawn(items, StartX, StartY)
    ensures Valid(GameState(StartX, StartY, Start, items, SpawnTriggers()))
  {
  }

  lemma StartOnFloor()
    ensures Walkable(StartX, StartY)
  {
  }

  /** The start of the game: collectibles spawned around the player at (5, 5), then the two chests. */
  function Init(draws: seq<Cell>, kinds: seq<nat>): (r: Option<GameState>)
    requires DrawsInRange(draws) && KindsInRange(kinds) && |kinds| >= SpawnCount
    ensures r.Some? ==> Valid(r.value)
    ensures r.Some? ==> r.value.x == StartX && r.value.y == StartY && r.value.progress == Start
    ensures r.Some? ==> r.value.chests == SpawnTriggers() && |r.value.collectibles| == SpawnCount
  {
    var spawned := SpawnCollectibles(draws, kinds, StartX, StartY);
    if spawned.None? then None
    else
      StartIsValid(spawned.value);
      Some(GameState(StartX, StartY, Start, spawned.value, SpawnTriggers()))
  }

  /**
   The game starts whenever the first five cell draws are distinct walkable
   cells other than (5, 5): the player at (5, 5) with the starting
   progress, those five cells holding the drawn item types, and the two
   closed chests.
   */
  lemma InitSucceeds(draws: seq<Cell>, kinds: seq<nat>)
    requires DrawsInRange(draws) && KindsInRange(kinds) && |kinds| >= SpawnCount
    requires SpawnCount <= |draws| && DistinctCells(draws[..SpawnCount])
    requires forall n :: 0 <= n < SpawnCount ==>
      Walkable(draws[n].x, draws[n].y) && draws[n] != Cell(StartX, StartY)
    ensures Init(draws, kinds)
      == Some(GameState(StartX, StartY, Start, Planted(draws[..SpawnCount], kinds), SpawnTriggers()))
  {
    SpawnSucceeds(draws, kinds, StartX, StartY);
  }

  /** A start state exists: five distinct floor and grass cells of the first inner row start the game. */
  lemma StartExists()
    ensures Init([Cell(1, 1), Cell(2, 1), Cell(3, 1), Cell(4, 1), Cell(6, 1)], [0, 1, 2, 3, 0]).Some?
  {
    var draws := [Cell(1, 1), Cell(2, 1), Cell(3, 1), Cell(4, 1), Cell(6, 1)];
    assert draws[..SpawnCount] == draws;
    InitSucceeds(draws, [0, 1, 2, 3, 0]);
  }

  /**
   A fired respawn succeeds whenever its first five cell draws are distinct
   walkable cells other than the player's tile, and places exactly those.
   */
  lemma RespawnSucceeds(s: GameState, draws: seq<Cell>, kinds: seq<nat>)
    requires DrawsInRange(draws) && KindsInRange(kinds) && |kinds| >= SpawnCount
    requires SpawnCount <= |draws| && DistinctCells(draws[..SpawnCount])
    requires forall n :: 0 <= n < SpawnCount ==>
      Walkable(draws[n].x, draws[n].y) && draws[n] != Cell(s.x, s.y)
    ensures Respawn(s, draws, kinds) == Some(s.(collectibles := Planted(draws[..SpawnCount], kinds)))
  {
    SpawnSucceeds(draws, kinds, s.x, s.y);
  }

  /**
   What can happen to a running game: a key press, or one of the timers
   firing. Respawns carry the random draws they use.
   */
  datatype Event =
    | Press(key: string)
    | RespawnFires(draws: seq<Cell>, kinds: seq<nat>)
    | ChestResetFires(index: nat)

  /** The draws of a respawn event are draws the game can make. */
  predicate WellFormed(e: Event) {
    e.RespawnFires? ==> DrawsInRange(e.draws) && KindsInRange(e.kinds) && |e.kinds| >= SpawnCount
  }

  /**
   One event. A respawn whose finite draws run out, and a reset naming no
   chest, leave the state as it was.
   */
  function Apply(s: GameState, e: Event): (r: GameState)
    requires Valid(s) && WellFormed(e)
    ensures Valid(r)
    ensures r.progress.coins >= s.progress.coins
    ensures r.progress.level >= s.progress.level
    ensures TotalXp(r.progress) >= TotalXp(s.progress)
    ensures e.Press? ==> r == HandleKey(s, e.key).state
    ensures e.RespawnFires? ==>
      r == match Respawn(s, e.draws, e.kinds) case Some(t) => t case None => s
    ensures e.ChestResetFires? ==> r == if e.index < |s.chests| then CloseChestAt(s, e.index) else s
  {
    match e
    case Press(key) =>
      var st := HandleKey(s, key);
      if KeyDirection(key).Some? then
        var (dx, dy) := Delta(KeyDirection(key).value);
        assert st == MovePlayer(s, dx, dy);
        MoveKeepsValid(s, dx, dy);
        if Walkable(s.x + dx, s.y + dy) then
          MoveLedger(s, dx, dy);
          st.state
        else
          st.state
      else
        st.state
    case RespawnFires(draws, kinds) =>
      (match Respawn(s, draws, kinds)
       case None => s
       case Some(t) => t)
    case ChestResetFires(i) =>
      if i < |s.chests| then CloseChestAt(s, i) else s
  }

  /**
   Any run of events from a valid state stays valid: the player is always
   on a walkable tile, the ledger holds, and coins, level and total xp
   never go down.
   */
  function Run(s: GameState, events: seq<Event>): (r: GameState)
    requires Valid(s)
    requires forall i :: 0 <= i < |events| ==> WellFormed(events[i])
    ensures Valid(r)
    ensures r.progress.coins >= s.progress.coins
    ensures r.progress.level >= s.progress.level
    ensures TotalXp(r.progress) >= TotalXp(s.progress)
    decreases |events|
  {
    if |events| == 0 then s else Run(Apply(s, events[0]), events[1..])
  }

  /**
   From the start position, ArrowUp steps onto the floor at (5, 4), while
   from (1, 1) the key a bumps into the wall at (0, 1) and nothing happens.
   */
  lemma KeyExamples(s: GameState)
    requires Valid(s) && s.x == StartX && s.y == StartY
    ensures HandleKey(s, "ArrowUp").state.x == 5 && HandleKey(s, "ArrowUp").state.y == 4
    ensures HandleKey(s.(x := 1, y := 1), "a") == Step(s.(x := 1, y := 1), [])
  {
  }

  /** However the game is played, the player never leaves the map or reaches its outer ring. */
  lemma PlayerStaysInside(s: GameState, events: seq<Event>)
    requires Valid(s)
    requires forall i :: 0 <= i < |events| ==> WellFormed(events[i])
    ensures var r := Run(s, events);
      InBounds(r.x, r.y) && Interior(r.x, r.y)
      && TileAt(r.x, r.y) != WallTile && TileAt(r.x, r.y) != WaterTile
  {
    var r := Run(s, events);
    assert Walkable(r.x, r.y);
    WalkableIsInterior(r.x, r.y);
  }
}

=== FILE: grid.dfy ===
/**
 The fixed 12 x 10 tile map of Pixel Quest and the walkability test that
 gates every player step.

 Tiles are the integer codes of the game: 0 = floor, 1 = wall, 2 = grass,
 3 = water. Walls and water block movement; floor and grass do not.
 The map is addressed as Map[y][x] (row first), exactly as the game does.
 */
module Grid {

  const MapWidth: int := 12
  const MapHeight: int := 10

  const FloorTile: int := 0
  const WallTile: int := 1
  const GrassTile: int := 2
  const WaterTile: int := 3

  /** The literal level layout, one row per inner sequence. */
  const Map: seq<seq<int>> := [
    [1,1,1,1,1,1,1,1,1,1,1,1],
    [1,0,0,0,2,2,0,0,0,0,0,1],
    [1,0,0,0,2,2,0,0,0,0,0,1],
    [1,0,0,0,0,0,0,0,3,3,0,1],
    [1,2,2,0,0,0,0,0,3,3,0,1],
    [1,2,2,0,0,0,0,0,0,0,0,1],
    [1,0,0,0,0,0,0,2,2,0,0,1],
    [1,0,0,3,3,0,0,2,2,0,0,1],
    [1,0,0,3,3,0,0,0,0,0,0,1],
    [1,1,1,1,1,1,1,1,1,1,1,1]
  ]

  predicate InBounds(x: int, y: int) {
    0 <= x < MapWidth && 0 <= y < MapHeight
  }

  /** The tile code at an in-bounds cell. */
  function TileAt(x: int, y: int): int
    requires InBounds(x, y)
  {
    Map[y][x]
  }

  /** The movement gate: inside the map and neither a wall nor water. */
  predicate Walkable(x: int, y: int) {
    InBounds(x, y) && TileAt(x, y) != WallTile && TileAt(x, y) != WaterTile
  }

  /** Inside the outer ring of the map. */
  predicate Interior(x: int, y: int) {
    1 <= x <= MapWidth - 2 && 1 <= y <= MapHeight - 2
  }

  /** Every cell of the outer ring is a wall. */
  lemma BorderIsWall(x: int, y: int)
    requires InBounds(x, y)
    requires x == 0 || y == 0 || x == MapWidth - 1 || y == MapHeight - 1
    ensures TileAt(x, y) == WallTile
  {
  }

  /** Walkable cells never lie on the outer ring. */
  lemma WalkableIsInterior(x: int, y: int)
    requires Walkable(x, y)
    ensures Interior(x, y)
  {
  }

  /** Every tile holds one of the four codes, so the walkable tiles are exactly floor and grass. */
  lemma WalkableIsFloorOrGrass(x: int, y: int)
    requires InBounds(x, y)
    ensures TileAt(x, y) in {FloorTile, WallTile, GrassTile, WaterTile}
    ensures Walkable(x, y) <==> TileAt(x, y) == FloorTile || TileAt(x, y) == GrassTile
  {
  }
}

=== FILE: items.dfy ===
/**
 Collectible records and chest records, and the list operations the pickup
 rule is built from: splitting a list into the items on one tile and the
 items elsewhere, and summing coin and xp values.
 */
module Items {

  /** One row of the item-type table: coins and xp granted on pickup. */
  datatype ItemType = ItemType(value: nat, xp: nat)

  /** The four item types (gem, star, apple, orb) in table order. */
  const ItemTypes: seq<ItemType> := [
    ItemType(10, 5),
    ItemType(5, 10),
    ItemType(3, 3),
    ItemType(15, 15)
  ]

  /** A collectible lying on a tile; the emoji and bobbing phase are cosmetic and left out. */
  datatype Collectible = Collectible(x: int, y: int, value: nat, xp: nat)

  /** A chest on a fixed tile that can be opened once until it is reset. */
  datatype Chest = Chest(x: int, y: int, isOpen: bool)

  predicate IsAt(c: Collectible, x: int, y: int) {
    c.x == x && c.y == y
  }

  /** The value/xp pair of a collectible is a row of the item-type table. */
  predicate FromTable(c: Collectible) {
    ItemType(c.value, c.xp) in ItemTypes
  }

  /** The items lying on tile (x, y), in list order. */
  function At(items: seq<Collectible>, x: int, y: int): (r: seq<Collectible>)
    ensures forall c :: c in r <==> c in items && IsAt(c, x, y)
    ensures |r| <= |items|
  {
    if |items| == 0 then []
    else if IsAt(items[0], x, y) then [items[0]] + At(items[1..], x, y)
    else At(items[1..], x, y)
  }

  /** The items lying anywhere but tile (x, y), in list order. */
  function Away(items: seq<Collectible>, x: int, y: int): (r: seq<Collectible>)
    ensures forall c :: c in r <==> c in items && !IsAt(c, x, y)
    ensures |r| <= |items|
  {
    if |items| == 0 then []
    else if IsAt(items[0], x, y) then Away(items[1..], x, y)
    else [items[0]] + Away(items[1..], x, y)
  }

  function ValueSum(items: seq<Collectible>): nat {
    if |items| == 0 then 0 else items[0].value + ValueSum(items[1..])
  }

  function XpSum(items: seq<Collectible>): nat {
    if |items| == 0 then 0 else items[0].xp + XpSum(items[1..])
  }

  /** No two items of the list share a tile. */
  predicate DistinctTiles(items: seq<Collectible>) {
    forall i, j :: 0 <= i < j < |items| ==> !IsAt(items[i], items[j].x, items[j].y)
  }

  /** Splitting a list by tile loses and invents nothing: the two parts together are the list. */
  lemma {:induction false} SplitIsPartition(items: seq<Collectible>, x: int, y: int)
    ensures multiset(At(items, x, y)) + multiset(Away(items, x, y)) == multiset(items)
    ensures |At(items, x, y)| + |Away(items, x, y)| == |items|
  {
    if |items| > 0 {
      SplitIsPartition(items[1..], x, y);
      assert items == [items[0]] + items[1..];
    }
  }

  /** Keeping the items off one tile keeps a list free of shared tiles. */
  lemma {:induction false} AwayKeepsDistinct(items: seq<Collectible>, x: int, y: int)
    requires DistinctTiles(items)
    ensures DistinctTiles(Away(items, x, y))
  {
    if |items| > 0 {
      var rest := items[1..];
      assert DistinctTiles(rest) by {
        forall i, j | 0 <= i < j < |rest|
          ensures !IsAt(rest[i], rest[j].x, rest[j].y)
        {
          assert rest[i] == items[i + 1] && rest[j] == items[j + 1];
        }
      }
      AwayKeepsDistinct(rest, x, y);
      if !IsAt(items[0], x, y) {
        var r := Away(items, x, y);
        assert r == [items[0]] + Away(rest, x, y);
        forall i, j | 0 <= i < j < |r|
          ensures !IsAt(r[i], r[j].x, r[j].y)
        {
          if i == 0 {
            assert r[j] in Away(rest, x, y);
            assert r[j] in rest;
            var k :| 0 <= k < |rest| && rest[k] == r[j];
            assert items[k + 1] == r[j];
          } else {
            assert r[i] == Away(rest, x, y)[i - 1] && r[j] == Away(rest, x, y)[j - 1];
          }
        }
      }
    }
  }

  /** The filter keeps list order: filtering a concatenation filters each part and joins them. */
  lemma {:induction false} AwayAppend(a: seq<Collectible>, b: seq<Collectible>, x: int, y: int)
    ensures Away(a + b, x, y) == Away(a, x, y) + Away(b, x, y)
    decreases |a|
  {
    if |a| == 0 {
      assert a + b == b;
    } else {
      assert (a + b)[1..] == a[1..] + b;
      AwayAppend(a[1..], b, x, y);
    }
  }

  /** The items on a tile are likewise taken in list order. */
  lemma {:induction false} AtAppend(a: seq<Collectible>, b: seq<Collectible>, x: int, y: int)
    ensures At(a + b, x, y) == At(a, x, y) + At(b, x, y)
    decreases |a|
  {
    if |a| == 0 {
      assert a + b == b;
    } else {
      assert (a + b)[1..] == a[1..] + b;
      AtAppend(a[1..], b, x, y);
    }
  }
}

=== FILE: options.dfy ===
/** An optional value, for results that may be absent. */
module Options {

  datatype Option<T> = None | Some(value: T)
}

=== FILE: pickup.dfy ===
/**
 The pickup rule run after every successful step: every collectible on the
 player's tile is removed from the list, its coins and xp are credited, and
 the level-up loop runs after each credited item.
 */
module Pickup {
  import opened Items
  import opened Progression

  /** The list left behind and the progress after crediting the pickups. */
  datatype Picked = Picked(items: seq<Collectible>, progress: Progress)

  /**
   Filters the list in order. The kept items are exactly those off the
   tile, in their original order, and the coins grow by exactly the value of
   the removed items. Each removed item is credited and followed by a run of
   the level-up loop, as the game does inside its filter callback.
   */
  function CheckCollectibles(items: seq<Collectible>, x: int, y: int, p: Progress): (r: Picked)
    requires p.xpToNext >= 1
    ensures r.items == Away(items, x, y)
    ensures r.progress.coins == p.coins + ValueSum(At(items, x, y))
    ensures r.progress.level >= p.level
    ensures r.progress.xpToNext >= p.xpToNext
    decreases |items|
  {
    if |items| == 0 then
      Picked([], p)
    else
      var c := items[0];
      if IsAt(c, x, y) then
        var p1 := LevelUp(Credit(p, c.value, c.xp));
        CheckCollectibles(items[1..], x, y, p1)
      else
        var rest := CheckCollectibles(items[1..], x, y, p);
        Picked([c] + rest.items, rest.progress)
  }

  /**
   Levelling up after every item is the same as crediting all removed items
   at once and levelling up once, when the progress was settled before.
   */
  lemma {:induction false} PickupIsOneLevelUp(items: seq<Collectible>, x: int, y: int, p: Progress)
    requires p.xpToNext >= 1
    requires p.xp < p.xpToNext
    ensures CheckCollectibles(items, x, y, p).progress
      == LevelUp(Credit(p, ValueSum(At(items, x, y)), XpSum(At(items, x, y))))
    decreases |items|
  {
    var here := At(items, x, y);
    if |items| == 0 {
      assert LevelUp(p) == p;
    } else {
      var c := items[0];
      var rest := At(items[1..], x, y);
      if IsAt(c, x, y) {
        var p1 := LevelUp(Credit(p, c.value, c.xp));
        PickupIsOneLevelUp(items[1..], x, y, p1);
        LevelUpAbsorbs(Credit(p, c.value, c.xp), ValueSum(rest), XpSum(rest));
        assert here == [c] + rest;
        assert ValueSum(here) == c.value + ValueSum(rest);
        assert XpSum(here) == c.xp + XpSum(rest);
        assert Credit(Credit(p, c.value, c.xp), ValueSum(rest), XpSum(rest))
          == Credit(p, ValueSum(here), XpSum(here));
      } else {
        PickupIsOneLevelUp(items[1..], x, y, p);
      }
    }
  }

  /**
   Pickup keeps the xp ledger: the threshold still matches the level, the
   xp in hand is below it, and the total xp earned grows by exactly the xp
   of the removed items.
   */
  lemma {:induction false} PickupKeepsLedger(items: seq<Collectible>, x: int, y: int, p: Progress)
    requires Settled(p)
    ensures Settled(CheckCollectibles(items, x, y, p).progress)
    ensures TotalXp(CheckCollectibles(items, x, y, p).progress) == TotalXp(p) + XpSum(At(items, x, y))
    decreases |items|
  {
    if |items| > 0 {
      var c := items[0];
      if IsAt(c, x, y) {
        var p1 := LevelUp(Credit(p, c.value, c.xp));
        LevelUpKeepsLedger(Credit(p, c.value, c.xp));
        PickupKeepsLedger(items[1..], x, y, p1);
      } else {
        PickupKeepsLedger(items[1..], x, y, p);
      }
    }
  }

  /**
   Nothing on the tile: the list and the progress are untouched.
   */
  lemma {:induction false} NothingToPick(items: seq<Collectible>, x: int, y: int, p: Progress)
    requires p.xpToNext >= 1
    requires forall c :: c in items ==> !IsAt(c, x, y)
    ensures CheckCollectibles(items, x, y, p) == Picked(items, p)
    decreases |items|
  {
    if |items| > 0 {
      NothingToPick(items[1..], x, y, p);
      assert items == [items[0]] + items[1..];
    }
  }
}

=== FILE: progression.dfy ===
/**
 Coins, experience and levels, and the level-up rule.

 Whenever xp reaches the current threshold the game subtracts the threshold,
 raises the level by one and multiplies the threshold by 1.5, rounded down,
 repeating until xp is below the threshold again. For a whole-number
 threshold t, Math.floor(t * 1.5) is exactly (3 * t) / 2 on naturals.
 */
module Progression {

  datatype Progress = Progress(coins: nat, xp: nat, level: nat, xpToNext: nat)

  const StartLevel: nat := 1
  const StartThreshold: nat := 50

  /** The progress of a fresh game. */
  const Start: Progress := Progress(0, 0, StartLevel, StartThreshold)

  /** The next threshold after a level-up: floor(t * 1.5). */
  function Grow(t: nat): nat {
    (3 * t) / 2
  }

  /** The threshold after k level-ups starting from threshold t. */
  function GrowN(t: nat, k: nat): nat
    decreases k
  {
    if k == 0 then t else GrowN(Grow(t), k - 1)
  }

  /** The xp spent by k level-ups starting from threshold t. */
  function SumThresholds(t: nat, k: nat): nat
    decreases k
  {
    if k == 0 then 0 else t + SumThresholds(Grow(t), k - 1)
  }

  /** Adds coins and xp without levelling up. */
  function Credit(p: Progress, coins: nat, xp: nat): Progress {
    p.(coins := p.coins + coins, xp := p.xp + xp)
  }

  /**
   The level-up loop as a function. The result took some number k of
   level-ups; it spent exactly the k thresholds it passed, its threshold is
   the k-th grown one, and its xp is below that threshold.
   */
  function LevelUp(p: Progress): (q: Progress)
    requires p.xpToNext >= 1
    ensures q.coins == p.coins
    ensures q.level >= p.level
    ensures q.xpToNext == GrowN(p.xpToNext, q.level - p.level)
    ensures p.xp == q.xp + SumThresholds(p.xpToNext, q.level - p.level)
    ensures q.xp < q.xpToNext
    ensures q.xpToNext >= p.xpToNext
    decreases p.xp
  {
    if p.xp >= p.xpToNext then
      LevelUp(Progress(p.coins, p.xp - p.xpToNext, p.level + 1, Grow(p.xpToNext)))
    else
      p
  }

  lemma {:induction false} GrowNStep(t: nat, k: nat)
    ensures GrowN(t, k + 1) == Grow(GrowN(t, k))
    ensures GrowN(t, k) >= t
    decreases k
  {
    if k > 0 {
      GrowNStep(Grow(t), k - 1);
    }
  }

  lemma {:induction false} SumThresholdsStep(t: nat, k: nat)
    ensures SumThresholds(t, k + 1) == SumThresholds(t, k) + GrowN(t, k)
    decreases k
  {
    if k > 0 {
      SumThresholdsStep(Grow(t), k - 1);
    }
  }

  /**
   The level-up loop, written as the game writes it. It ends with xp below
   the threshold, having spent exactly the thresholds it passed, and agrees
   with LevelUp.
   */
  method CheckLevelUp(p: Progress) returns (q: Progress)
    requires p.xpToNext >= 1
    ensures q.coins == p.coins
    ensures q.level >= p.level
    ensures q.xpToNext == GrowN(p.xpToNext, q.level - p.level)
    ensures p.xp == q.xp + SumThresholds(p.xpToNext, q.level - p.level)
    ensures q.xp < q.xpToNext
    ensures q.xpToNext >= p.xpToNext
    ensures q == LevelUp(p)
  {
    var xp: nat, level: nat, next: nat := p.xp, p.level, p.xpToNext;
    while xp >= next
      invariant level >= p.level
      invariant next == GrowN(p.xpToNext, level - p.level)
      invariant p.xp == xp + SumThresholds(p.xpToNext, level - p.level)
      invariant next >= p.xpToNext
      decreases xp
    {
      GrowNStep(p.xpToNext, level - p.level);
      SumThresholdsStep(p.xpToNext, level - p.level);
      xp := xp - next;
      level := level + 1;
      next := Grow(next);
    }
    q := Progress(p.coins, xp, level, next);
    LevelUpUnique(p, q);
  }

  /**
   The stopping point of the level-up loop is unique: any progress that
   spent exactly the first k thresholds and ended below the next one is
   the result of LevelUp.
   */
  lemma {:induction false} LevelUpUnique(p: Progress, q: Progress)
    requires p.xpToNext >= 1
    requires q.coins == p.coins
    requires q.level >= p.level
    requires q.xpToNext == GrowN(p.xpToNext, q.level - p.level)
    requires p.xp == q.xp + SumThresholds(p.xpToNext, q.level - p.level)
    requires q.xp < q.xpToNext
    ensures q == LevelUp(p)
    decreases q.level - p.level
  {
    var k := q.level - p.level;
    if k == 0 {
      assert p.xp == q.xp;
    } else {
      assert p.xp >= p.xpToNext;
      var p1 := Progress(p.coins, p.xp - p.xpToNext, p.level + 1, Grow(p.xpToNext));
      LevelUpUnique(p1, q);
    }
  }

  /** A worked example: 125 xp against a threshold of 50 is two level-ups, leaving 0 xp and threshold 112. */
  lemma DoubleLevelUp()
    ensures LevelUp(Progress(0, 125, 1, 50)) == Progress(0, 0, 3, 112)
  {
  }

  /**
   Levelling up between two gains changes nothing: crediting a level-up
   result and levelling up again is the same as one level-up on the total.
   */
  lemma {:induction false} LevelUpAbsorbs(p: Progress, coins: nat, xp: nat)
    requires p.xpToNext >= 1
    ensures LevelUp(Credit(LevelUp(p), coins, xp)) == LevelUp(Credit(p, coins, xp))
    decreases p.xp
  {
    if p.xp >= p.xpToNext {
      var p1 := Progress(p.coins, p.xp - p.xpToNext, p.level + 1, Grow(p.xpToNext));
      assert LevelUp(p) == LevelUp(p1);
      LevelUpAbsorbs(p1, coins, xp);
      var c := Credit(p, coins, xp);
      assert c.xp >= c.xpToNext;
      assert Progress(c.coins, c.xp - c.xpToNext, c.level + 1, Grow(c.xpToNext)) == Credit(p1, coins, xp);
      assert LevelUp(c) == LevelUp(Credit(p1, coins, xp));
    }
  }

  // ---------------------------------------------------------------------
  // The xp ledger: in a game that started from Start, the threshold is a
  // function of the level, and the xp earned so far is the xp spent on
  // all level-ups plus the xp in hand.
  // ---------------------------------------------------------------------

  /** The threshold in force at a level of a game that started at level 1 with threshold 50. */
  function Threshold(level: nat): nat {
    if level <= StartLevel then StartThreshold else Grow(Threshold(level - 1))
  }

  /** The xp spent to climb from level 1 to the given level. */
  function Cumulative(level: nat): nat {
    if level <= StartLevel then 0 else Cumulative(level - 1) + Threshold(level - 1)
  }

  /** The threshold agrees with the level. */
  predicate Ledger(p: Progress) {
    p.level >= StartLevel && p.xpToNext == Threshold(p.level)
  }

  /** All xp earned since level 1. */
  function TotalXp(p: Progress): nat {
    Cumulative(p.level) + p.xp
  }

  /** A ledger-consistent progress is settled when xp is below the threshold. */
  predicate Settled(p: Progress) {
    Ledger(p) && p.xp < p.xpToNext
  }

  lemma {:induction false} ThresholdAtLeastStart(level: nat)
    ensures Threshold(level) >= StartThreshold
    decreases level
  {
    if level > StartLevel {
      ThresholdAtLeastStart(level - 1);
    }
  }

  lemma {:induction false} GrowNThreshold(level: nat, k: nat)
    requires level >= StartLevel
    ensures GrowN(Threshold(level), k) == Threshold(level + k)
    decreases k
  {
    if k > 0 {
      GrowNThreshold(level + 1, k - 1);
    }
  }

  lemma {:induction false} SumThresholdsCumulative(level: nat, k: nat)
    requires level >= StartLevel
    ensures Cumulative(level) + SumThresholds(Threshold(level), k) == Cumulative(level + k)
    decreases k
  {
    if k > 0 {
      SumThresholdsCumulative(level + 1, k - 1);
    }
  }

  /**
   Levelling up keeps the ledger: the threshold still agrees with the level,
   the total xp earned is unchanged, and the threshold never drops below 50.
   */
  lemma LevelUpKeepsLedger(p: Progress)
    requires Ledger(p)
    ensures p.xpToNext >= StartThreshold
    ensures Settled(LevelUp(p))
    ensures TotalXp(LevelUp(p)) == TotalXp(p)
    ensures LevelUp(p).xpToNext >= StartThreshold
  {
    ThresholdAtLeastStart(p.level);
    var q := LevelUp(p);
    var k := q.level - p.level;
    GrowNThreshold(p.level, k);
    SumThresholdsCumulative(p.level, k);
  }
}

=== FILE: spawn.dfy ===
/**
 Placing the five collectibles.

 The game draws a random interior cell, rejects it if it is a wall or water
 tile, the player's tile, or already holds a collectible, and draws again
 until it finds an acceptable cell; then it draws one of the four item
 types. Here the random draws are inputs: a stream of candidate cells and a
 stream of item-type indices. Since a finite stream can run out where the
 game would keep drawing, running out is reported as None.
 */
module Spawn {
  import opened Grid
  import opened Items
  import opened Options

  /** How many collectibles one spawn places. */
  const SpawnCount: nat := 5

  /** A candidate cell drawn by the game. */
  datatype Cell = Cell(x: int, y: int)

  /** Whether some collectible of the list lies on (x, y). */
  predicate Occupied(placed: seq<Collectible>, x: int, y: int) {
    exists i :: 0 <= i < |placed| && IsAt(placed[i], x, y)
  }

  /** The retry condition of the game, negated: the draw is kept. */
  predicate Accepts(d: Cell, placed: seq<Collectible>, px: int, py: int) {
    Walkable(d.x, d.y) && !(d.x == px && d.y == py) && !Occupied(placed, d.x, d.y)
  }

  /** The cells the game can draw: x in 1..MapWidth-2, y in 1..MapHeight-2. */
  predicate DrawsInRange(draws: seq<Cell>) {
    forall i :: 0 <= i < |draws| ==> Interior(draws[i].x, draws[i].y)
  }

  /** The item-type indices the game can draw. */
  predicate KindsInRange(kinds: seq<nat>) {
    forall i :: 0 <= i < |kinds| ==> kinds[i] < |ItemTypes|
  }

  /** What every placed collectible satisfies, whatever the number placed so far. */
  predicate Placement(items: seq<Collectible>, px: int, py: int) {
    && (forall i :: 0 <= i < |items| ==>
         && Interior(items[i].x, items[i].y)
         && Walkable(items[i].x, items[i].y)
         && !IsAt(items[i], px, py)
         && FromTable(items[i]))
    && DistinctTiles(items)
  }

  /** A complete spawn: exactly five collectibles placed as the game places them. */
  predicate ValidSpawn(items: seq<Collectible>, px: int, py: int) {
    |items| == SpawnCount && Placement(items, px, py)
  }

  /** The cells the items of a list lie on, in list order. */
  function Cells(items: seq<Collectible>): (r: seq<Cell>)
    ensures |r| == |items|
    ensures forall n :: 0 <= n < |items| ==> r[n] == Cell(items[n].x, items[n].y)
  {
    seq(|items|, n requires 0 <= n < |items| => Cell(items[n].x, items[n].y))
  }

  /** `a` is `b` with some elements left out: it picks elements of `b` in order. */
  predicate Subsequence(a: seq<Cell>, b: seq<Cell>)
    decreases |b|
  {
    if |a| == 0 then true
    else if |b| == 0 then false
    else (a[0] == b[0] && Subsequence(a[1..], b[1..])) || Subsequence(a, b[1..])
  }

  /** Dropping draws from the front keeps an in-order pick an in-order pick of the whole stream. */
  lemma {:induction false} SubsequenceOfSuffix(a: seq<Cell>, b: seq<Cell>, i: nat)
    requires i <= |b| && Subsequence(a, b[i..])
    ensures Subsequence(a, b)
    decreases i
  {
    if i > 0 {
      assert b[i - 1..][1..] == b[i..];
      if |a| > 0 {
        assert Subsequence(a, b[i - 1..]);
      }
      SubsequenceOfSuffix(a, b, i - 1);
    }
  }

  /**
   The items an exactly-fitting stream places: the n-th item on the n-th
   cell, with the item type the n-th type index names.
   */
  function Planted(cells: seq<Cell>, kinds: seq<nat>): (r: seq<Collectible>)
    requires KindsInRange(kinds) && |kinds| >= |cells|
    ensures |r| == |cells| && Cells(r) == cells
    ensures forall n :: 0 <= n < |cells| ==> ItemType(r[n].value, r[n].xp) == ItemTypes[kinds[n]]
  {
    seq(|cells|, n requires 0 <= n < |cells| =>
      Collectible(cells[n].x, cells[n].y, ItemTypes[kinds[n]].value, ItemTypes[kinds[n]].xp))
  }

  /** No cell occurs twice in the list. */
  predicate DistinctCells(cells: seq<Cell>) {
    forall m, n :: 0 <= m < n < |cells| ==> cells[m] != cells[n]
  }

  /** The n-th item of the list has the item type the n-th type index names. */
  predicate HasKinds(items: seq<Collectible>, kinds: seq<nat>) {
    && |items| <= |kinds|
    && (forall n :: 0 <= n < |items| ==>
         (kinds[n] < |ItemTypes| && ItemType(items[n].value, items[n].xp) == ItemTypes[kinds[n]]))
  }

  lemma HasKindsCons(c: Collectible, rest: seq<Collectible>, kinds: seq<nat>)
    requires |kinds| >= 1 && kinds[0] < |ItemTypes| && ItemType(c.value, c.xp) == ItemTypes[kinds[0]]
    requires HasKinds(rest, kinds[1..])
    ensures HasKinds([c] + rest, kinds)
  {
    forall n | 1 <= n < |rest| + 1
      ensures kinds[n] < |ItemTypes| && ItemType(([c] + rest)[n].value, ([c] + rest)[n].xp) == ItemTypes[kinds[n]]
    {
      assert ([c] + rest)[n] == rest[n - 1];
      assert kinds[n] == kinds[1..][n - 1];
    }
  }

  /**
   The do-while retry loop: the position of the first acceptable draw,
   every earlier draw having been rejected; None when every draw is rejected.
   */
  function FirstAccepted(draws: seq<Cell>, placed: seq<Collectible>, px: int, py: int): (r: Option<nat>)
    ensures r.Some? ==> r.value < |draws| && Accepts(draws[r.value], placed, px, py)
    ensures r.Some? ==> forall j :: 0 <= j < r.value ==> !Accepts(draws[j], placed, px, py)
    ensures r.None? ==> forall j :: 0 <= j < |draws| ==> !Accepts(draws[j], placed, px, py)
    decreases |draws|
  {
    if |draws| == 0 then None
    else if Accepts(draws[0], placed, px, py) then Some(0)
    else
      match FirstAccepted(draws[1..], placed, px, py)
      case None => None
      case Some(i) => Some(i + 1)
  }

  /**
   The retry loop at work: with the player at (5, 5), the draw of the
   player's own tile and the draw of the water tile (8, 3) are rejected,
   and the grass tile (4, 1) is kept.
   */
  lemma RetryExample()
    ensures FirstAccepted([Cell(5, 5), Cell(8, 3), Cell(4, 1)], [], 5, 5) == Some(2)
  {
  }

  /** Adding a collectible on an accepted draw keeps the placement valid. */
  lemma AcceptedExtends(placed: seq<Collectible>, d: Cell, t: ItemType, px: int, py: int)
    requires Placement(placed, px, py)
    requires Interior(d.x, d.y) && Accepts(d, placed, px, py)
    requires t in ItemTypes
    ensures Placement(placed + [Collectible(d.x, d.y, t.value, t.xp)], px, py)
  {
  }

  /** An item on draw i followed by items picked in order from the later draws are picked in order. */
  lemma DrawnInOrder(c: Collectible, rest: seq<Collectible>, draws: seq<Cell>, i: nat)
    requires i < |draws| && Cell(c.x, c.y) == draws[i]
    requires Subsequence(Cells(rest), draws[i + 1..])
    ensures Subsequence(Cells([c] + rest), draws)
  {
    var a := Cells([c] + rest);
    assert a[0] == draws[i..][0];
    assert a[1..] == Cells(rest);
    assert draws[i..][1..] == draws[i + 1..];
    assert Subsequence(a, draws[i..]);
    SubsequenceOfSuffix(a, draws, i);
  }

  /**
   Places `count` more collectibles after `placed`: each takes the first
   acceptable remaining draw and the next item-type index. If placing
   succeeds, the result extends `placed` by exactly `count` items that keep the
   placement valid, the n-th new item having the n-th drawn type.
   */
  function Place(count: nat, draws: seq<Cell>, kinds: seq<nat>, placed: seq<Collectible>, px: int, py: int)
    : (r: Option<seq<Collectible>>)
    requires DrawsInRange(draws) && KindsInRange(kinds) && |kinds| >= count
    requires Placement(placed, px, py)
    ensures r.Some? ==> |r.value| == |placed| + count
    ensures r.Some? ==> r.value[..|placed|] == placed
    ensures r.Some? ==> Placement(r.value, px, py)
    ensures r.Some? ==> HasKinds(r.value[|placed|..], kinds)
    ensures r.Some? ==> Subsequence(Cells(r.value[|placed|..]), draws)
    decreases count
  {
    if count == 0 then Some(placed)
    else
      match FirstAccepted(draws, placed, px, py)
      case None => None
      case Some(i) =>
        var d := draws[i];
        var t := ItemTypes[kinds[0]];
        AcceptedExtends(placed, d, t, px, py);
        var next := placed + [Collectible(d.x, d.y, t.value, t.xp)];
        var r := Place(count - 1, draws[i + 1..], kinds[1..], next, px, py);
        if r.Some? then
          PlaceExtends(placed, Collectible(d.x, d.y, t.value, t.xp), r.value, draws, i, kinds);
          r
        else
          r
  }

  /**
   The step of Place: an item on draw i with the first drawn type, followed
   by what the later draws and types place, extends the list as Place promises.
   */
  lemma PlaceExtends(placed: seq<Collectible>, c: Collectible, result: seq<Collectible>, draws: seq<Cell>, i: nat, kinds: seq<nat>)
    requires i < |draws| && Cell(c.x, c.y) == draws[i]
    requires |kinds| >= 1 && kinds[0] < |ItemTypes| && ItemType(c.value, c.xp) == ItemTypes[kinds[0]]
    requires |result| >= |placed| + 1 && result[..|placed| + 1] == placed + [c]
    requires HasKinds(result[|placed| + 1..], kinds[1..])
    requires Subsequence(Cells(result[|placed| + 1..]), draws[i + 1..])
    ensures result[..|placed|] == placed
    ensures HasKinds(result[|placed|..], kinds)
    ensures Subsequence(Cells(result[|placed|..]), draws)
  {
    var next := placed + [c];
    assert result[..|placed|] == next[..|placed|];
    assert result[|placed|..] == [c] + result[|next|..] by {
      assert result[|placed|] == next[|placed|];
    }
    HasKindsCons(c, result[|next|..], kinds);
    DrawnInOrder(c, result[|next|..], draws, i);
  }

  /** A draw accepted against a list, on another cell than a new item, is accepted once that item is added. */
  lemma AcceptsPastNew(placed: seq<Collectible>, c: Collectible, e: Cell, px: int, py: int)
    requires Accepts(e, placed, px, py) && e != Cell(c.x, c.y)
    ensures Accepts(e, placed + [c], px, py)
  {
    var next := placed + [c];
    forall k | 0 <= k < |next|
      ensures !IsAt(next[k], e.x, e.y)
    {
      if k < |placed| {
        assert next[k] == placed[k];
      }
    }
  }

  /**
   The retry of the do-while loop: a rejected first draw is skipped, and
   placing goes on exactly as if the stream began one draw later.
   */
  lemma PlaceSkipsRejected(count: nat, draws: seq<Cell>, kinds: seq<nat>, placed: seq<Collectible>, px: int, py: int)
    requires DrawsInRange(draws) && KindsInRange(kinds) && |kinds| >= count >= 1
    requires Placement(placed, px, py)
    requires |draws| >= 1 && !Accepts(draws[0], placed, px, py)
    ensures DrawsInRange(draws[1..])
    ensures Place(count, draws, kinds, placed, px, py) == Place(count, draws[1..], kinds, placed, px, py)
  {
    assert DrawsInRange(draws[1..]);
    match FirstAccepted(draws[1..], placed, px, py)
    case None =>
      assert FirstAccepted(draws, placed, px, py) == None;
    case Some(i) =>
      assert FirstAccepted(draws, placed, px, py) == Some(i + 1);
      assert draws[i + 1] == draws[1..][i];
      assert draws[i + 2..] == draws[1..][i + 1..];
  }

  /**
   The other branch of the retry loop: an accepted first draw is kept with
   the first drawn type, and placing goes on from the next draw, so later
   draws are tested against the list that now holds it.
   */
  lemma PlaceTakesAccepted(count: nat, draws: seq<Cell>, kinds: seq<nat>, placed: seq<Collectible>, px: int, py: int)
    requires DrawsInRange(draws) && KindsInRange(kinds) && |kinds| >= count >= 1
    requires Placement(placed, px, py)
    requires |draws| >= 1 && Accepts(draws[0], placed, px, py)
    ensures var t := ItemTypes[kinds[0]];
      var next := placed + [Collectible(draws[0].x, draws[0].y, t.value, t.xp)];
      && Placement(next, px, py) && DrawsInRange(draws[1..]) && KindsInRange(kinds[1..])
      && Place(count, draws, kinds, placed, px, py) == Place(count - 1, draws[1..], kinds[1..], next, px, py)
  {
    AcceptedExtends(placed, draws[0], ItemTypes[kinds[0]], px, py);
    assert DrawsInRange(draws[1..]) && KindsInRange(kinds[1..]);
    assert FirstAccepted(draws, placed, px, py) == Some(0);
  }

  /**
   The step of PlaceSucceeds: if the draws after an accepted first draw
   place exactly their planted items, the whole stream does.
   */
  lemma PlaceSucceedsStep(count: nat, draws: seq<Cell>, kinds: seq<nat>, placed: seq<Collectible>, px: int, py: int)
    requires DrawsInRange(draws) && KindsInRange(kinds) && |kinds| >= count >= 1
    requires Placement(placed, px, py)
    requires |draws| >= count && Accepts(draws[0], placed, px, py)
    requires var t := ItemTypes[kinds[0]];
      var next := placed + [Collectible(draws[0].x, draws[0].y, t.value, t.xp)];
      && Placement(next, px, py) && DrawsInRange(draws[1..]) && KindsInRange(kinds[1..])
      && Place(count - 1, draws[1..], kinds[1..], next, px, py)
        == Some(next + Planted(draws[1..][..count - 1], kinds[1..]))
    ensures Place(count, draws, kinds, placed, px, py) == Some(placed + Planted(draws[..count], kinds))
  {
    var t := ItemTypes[kinds[0]];
    var c := Collectible(draws[0].x, draws[0].y, t.value, t.xp);
    var next := placed + [c];
    assert FirstAccepted(draws, placed, px, py) == Some(0);
    assert Place(count, draws, kinds, placed, px, py) == Place(count - 1, draws[1..], kinds[1..], next, px, py);
    PlantedCons(draws, kinds, count);
    JoinAfter(placed, c, Planted(draws[1..][..count - 1], kinds[1..]));
  }

  /** Appending one item and then a tail is appending the item followed by the tail. */
  lemma JoinAfter(placed: seq<Collectible>, c: Collectible, tail: seq<Collectible>)
    ensures (placed + [c]) + tail == placed + ([c] + tail)
  {
  }

  /**
   With distinct draws that each pass against the list, the draws after the
   first still pass once an item lies on the first.
   */
  lemma RestAccepted(count: nat, draws: seq<Cell>, placed: seq<Collectible>, c: Collectible, px: int, py: int)
    requires 1 <= count <= |draws| && DistinctCells(draws[..count])
    requires forall n :: 0 <= n < count ==> Accepts(draws[n], placed, px, py)
    requires Cell(c.x, c.y) == draws[0]
    ensures DistinctCells(draws[1..][..count - 1])
    ensures forall n :: 0 <= n < count - 1 ==> Accepts(draws[1..][n], placed + [c], px, py)
  {
    DistinctTail(draws, count);
    forall n | 0 <= n < count - 1
      ensures Accepts(draws[1..][n], placed + [c], px, py)
    {
      assert draws[1..][n] == draws[n + 1];
      AcceptsPastNew(placed, c, draws[1..][n], px, py);
    }
  }

  /** The cells after the first of a distinct list are distinct. */
  lemma DistinctTail(draws: seq<Cell>, count: nat)
    requires 1 <= count <= |draws| && DistinctCells(draws[..count])
    ensures DistinctCells(draws[1..][..count - 1])
    ensures forall n :: 0 <= n < count - 1 ==> draws[1..][n] != draws[0]
  {
    var tail := draws[1..][..count - 1];
    forall m, n | 0 <= m < n < count - 1
      ensures tail[m] != tail[n]
    {
      assert draws[..count][m + 1] == tail[m] && draws[..count][n + 1] == tail[n];
    }
    forall n | 0 <= n < count - 1
      ensures draws[1..][n] != draws[0]
    {
      assert draws[..count][0] == draws[0] && draws[..count][n + 1] == draws[1..][n];
    }
  }

  /** The planted items of a stream are its first item followed by the planted items of the rest. */
  lemma PlantedCons(draws: seq<Cell>, kinds: seq<nat>, count: nat)
    requires KindsInRange(kinds) && 1 <= count <= |kinds| && count <= |draws|
    ensures KindsInRange(kinds[1..])
    ensures Planted(draws[..count], kinds)
      == [Collectible(draws[0].x, draws[0].y, ItemTypes[kinds[0]].value, ItemTypes[kinds[0]].xp)]
        + Planted(draws[1..][..count - 1], kinds[1..])
  {
    assert KindsInRange(kinds[1..]);
    var whole := Planted(draws[..count], kinds);
    var tail := Planted(draws[1..][..count - 1], kinds[1..]);
    forall n | 1 <= n < count
      ensures whole[n] == tail[n - 1]
    {
      assert draws[..count][n] == draws[1..][..count - 1][n - 1];
      assert kinds[n] == kinds[1..][n - 1];
    }
  }

  /**
   When the first `count` draws are distinct cells that each pass the retry
   test against the items already placed, every one of them is kept on its
   first try: the result is exactly those cells, in order, with the drawn
   item types.
   */
  lemma {:induction false} PlaceSucceeds(count: nat, draws: seq<Cell>, kinds: seq<nat>, placed: seq<Collectible>, px: int, py: int)
    requires DrawsInRange(draws) && KindsInRange(kinds) && |kinds| >= count
    requires Placement(placed, px, py)
    requires count <= |draws| && DistinctCells(draws[..count])
    requires forall n :: 0 <= n < count ==> Accepts(draws[n], placed, px, py)
    ensures Place(count, draws, kinds, placed, px, py) == Some(placed + Planted(draws[..count], kinds))
    decreases count
  {
    if count == 0 {
      assert placed + Planted(draws[..0], kinds) == placed;
    } else {
      var t := ItemTypes[kinds[0]];
      var c := Collectible(draws[0].x, draws[0].y, t.value, t.xp);
      AcceptedExtends(placed, draws[0], t, px, py);
      assert DrawsInRange(draws[1..]) && KindsInRange(kinds[1..]);
      RestAccepted(count, draws, placed, c, px, py);
      PlaceSucceeds(count - 1, draws[1..], kinds[1..], placed + [c], px, py);
      PlaceSucceedsStep(count, draws, kinds, placed, px, py);
    }
  }

  /**
   spawnCollectibles with its random draws supplied: if the spawn succeeds,
   exactly five collectibles on distinct interior walkable tiles other than
   the player's, each of the drawn item type.
   */
  function SpawnCollectibles(draws: seq<Cell>, kinds: seq<nat>, px: int, py: int): (r: Option<seq<Collectible>>)
    requires DrawsInRange(draws) && KindsInRange(kinds) && |kinds| >= SpawnCount
    ensures r.Some? ==> ValidSpawn(r.value, px, py)
    ensures r.Some? ==> forall n :: 0 <= n < SpawnCount ==>
      ItemType(r.value[n].value, r.value[n].xp) == ItemTypes[kinds[n]]
  {
    var r := Place(SpawnCount, draws, kinds, [], px, py);
    if r.Some? then
      assert r.value[0..] == r.value;
      r
    else
      r
  }

  /**
   spawnCollectibles succeeds whenever its first five draws are distinct
   walkable cells other than the player's: it places exactly those five
   cells, in draw order, with the drawn item types.
   */
  lemma SpawnSucceeds(draws: seq<Cell>, kinds: seq<nat>, px: int, py: int)
    requires DrawsInRange(draws) && KindsInRange(kinds) && |kinds| >= SpawnCount
    requires SpawnCount <= |draws| && DistinctCells(draws[..SpawnCount])
    requires forall n :: 0 <= n < SpawnCount ==> Walkable(draws[n].x, draws[n].y) && draws[n] != Cell(px, py)
    ensures SpawnCollectibles(draws, kinds, px, py) == Some(Planted(draws[..SpawnCount], kinds))
  {
    PlaceSucceeds(SpawnCount, draws, kinds, [], px, py);
    assert [] + Planted(draws[..SpawnCount], kinds) == Planted(draws[..SpawnCount], kinds);
  }

  /** spawnCollectibles retries past a rejected draw: the spawn is that of the remaining draws. */
  lemma SpawnSkipsRejected(draws: seq<Cell>, kinds: seq<nat>, px: int, py: int)
    requires DrawsInRange(draws) && KindsInRange(kinds) && |kinds| >= SpawnCount
    requires |draws| >= 1 && !Accepts(draws[0], [], px, py)
    ensures DrawsInRange(draws[1..])
    ensures SpawnCollectibles(draws, kinds, px, py) == SpawnCollectibles(draws[1..], kinds, px, py)
  {
    PlaceSkipsRejected(SpawnCount, draws, kinds, [], px, py);
  }

  /**
   The occupied-cell retry: a draw repeating the cell just filled is
   skipped, and placing goes on from the draw after it.
   */
  lemma RepeatedDrawSkipped(count: nat, draws: seq<Cell>, kinds: seq<nat>, placed: seq<Collectible>, px: int, py: int)
    requires DrawsInRange(draws) && KindsInRange(kinds) && |kinds| >= count >= 2
    requires Placement(placed, px, py)
    requires |draws| >= 2 && Accepts(draws[0], placed, px, py) && draws[1] == draws[0]
    ensures var t := ItemTypes[kinds[0]];
      var next := placed + [Collectible(draws[0].x, draws[0].y, t.value, t.xp)];
      && Placement(next, px, py) && DrawsInRange(draws[2..]) && KindsInRange(kinds[1..])
      && Place(count, draws, kinds, placed, px, py) == Place(count - 1, draws[2..], kinds[1..], next, px, py)
  {
    var t := ItemTypes[kinds[0]];
    var next := placed + [Collectible(draws[0].x, draws[0].y, t.value, t.xp)];
    PlaceTakesAccepted(count, draws, kinds, placed, px, py);
    assert IsAt(next[|placed|], draws[1].x, draws[1].y);
    assert draws[1..][0] == draws[1] && !Accepts(draws[1..][0], next, px, py);
    PlaceSkipsRejected(count - 1, draws[1..], kinds[1..], next, px, py);
    assert draws[1..][1..] == draws[2..];
  }
}
